=== FILE: README.md ===
# Marketplace backend services in Dafny

A model of the service layer of a NestJS marketplace backend in which
producers list farm products and buyers place multi-item orders. Four parts
are modelled:

- **Order placement and the order table** (`Orders`, `orders.dfy`). An
  `OrderService` class holds the order collection as a `map` from id to
  order and the `order.created` emissions as a ghost log. `Create` refuses an
  empty or absent cart. It then looks every cart line up in the catalogue, in
  cart order, and stops at the first line whose product is missing or whose
  quantity exceeds the stock, compared as JavaScript compares: a listing
  without a stock never runs out, and a `null` stock counts as 0. Only when
  every line passes does it insert one order of `(product, quantity)` pairs
  and emit one event carrying it. The other operations are find, update,
  delete and find-by-buyer, each failing with NotFound on a missing id.
- **Product catalogue** (`Farm`, `farm.dfy`). A `FarmService` class holds
  the product collection. Update and delete are allowed to the listing's
  owner and to callers with role `admin`, and fail with Forbidden otherwise.
  `MarkAsSold` sets `status` to `Sold` without an ownership check. The public
  list and the per-owner list are filters.
- **User registry** (`Auth`, `auth.dfy`). An `AuthService` class holds the
  user collection; its invariant is that every stored address is lower case
  and no two users share one. Registration lower-cases the address, refuses
  a taken one with Conflict and stores role `user` and the bcrypt hash.
  Google sign-in accepts only Gmail addresses and registers a user at most
  once. The forgotten-password request answers identically for known and
  unknown addresses. Login, reset and update check tokens and credentials.
- **Password-strength rule** (`PasswordDto`, `password_dto.dfy`). The
  length bounds and the look-ahead pattern on `newPassword` of the reset and
  update request bodies, with the pattern's meaning proved in plain terms.

`common.dfy` holds the `Option`/`Result` types and one `Error` case per
NestJS exception the services throw, plus `Internal` for an uncaught error
answered with 500. `text.dfy` holds lower-casing, `endsWith` and
`split('@')[0]`. `scenarios.dfy` holds client methods that chain calls and
state what callers get from the contracts alone.

External code is abstract:
- bcrypt's hash and compare are function values in a `Crypto` record.
- The JWT signer and verifier are function values in a `Jwt` record. The
  clock is a method parameter: `sign` takes the issue time, so tokens signed
  at different times may differ, and `verify` takes the current time, so a
  token can expire.
- Both records are given to the `AuthService` constructor.
- The random bcrypt salt and every newly generated document id are method
  parameters. A new id must not already be in the collection, as the id
  generator guarantees.

The service does not recompute an order's total from catalogue prices. The
stored `totalAmount` is the client's `grandTotal` (order.service.ts:57), and
the model does the same. There is also no status-transition guard, no
line-removal operation and no per-producer order listing. The routes for the
last two (order.controller.ts:63 and :105) call service methods that do not
exist, so they are not modelled.

## Model

| member | source | states |
|---|---|---|
| `Text.ToLower` | src/auth/auth.service.ts:31 | same length; every upper-case letter becomes its lower-case letter, every other character is kept |
| `Text.ToLowerIdempotent` | src/auth/auth.service.ts:31 | lower-casing a lower-cased address changes nothing |
| `Text.ToLowerEqualIffSameIgnoringCase` | src/auth/auth.service.ts:31-35 | two addresses lower-case to the same string exactly when they differ only in letter case |
| `Text.EndsWith` | src/auth/auth.service.ts:89 | `endsWith`: the suffix is no longer than the text and equals its last characters, position by position |
| `Text.ToLowerDrop` | src/auth/auth.service.ts:86-89 | lower-casing the text and then dropping a prefix equals dropping the prefix and then lower-casing |
| `Text.BeforeFirst` | src/auth/auth.service.ts:98 | `split('@')[0]`: a prefix of the input holding no `@`, followed by `@` unless it is the whole input |
| `PasswordDto.MatchesStrengthPattern` | src/auth/dto/reset-password.dto.ts:13 | a match is non-empty, holds no line break, and holds a lower-case letter, an upper-case letter, a digit and one of `@$!%*?&` |
| `PasswordDto.IsStrongPassword` | src/auth/dto/reset-password.dto.ts:10-13 | an accepted password has 8 to 32 characters, no line break and a character of each of the four classes (the converse is `StrongPasswordMeaning`) |
| `PasswordDto.StrongPasswordMeaning` | src/auth/dto/reset-password.dto.ts:10-13 | strong exactly when 8 to 32 characters, no line break, and at least one lower-case letter, upper-case letter, digit and one of `@$!%*?&` (both directions) |
| `PasswordDto.PatternAllowsAnyOtherCharacter` | src/auth/dto/reset-password.dto.ts:13 | the pattern body is `.+`: inserting any character other than a line break keeps a matching password matching |
| `PasswordDto.StrongExample` | src/auth/dto/update-password.dto.ts:10-12 | `Passw0rd!` is accepted |
| `PasswordDto.LengthExamples` | src/auth/dto/reset-password.dto.ts:10-11 | a 7-character and a 33-character password are rejected |
| `PasswordDto.NoUpperExample` | src/auth/dto/reset-password.dto.ts:13 | a password without an upper-case letter is rejected |
| `PasswordDto.NoDigitExample` | src/auth/dto/update-password.dto.ts:12 | a password without a digit is rejected |
| `PasswordDto.NoSpecialExample` | src/auth/dto/update-password.dto.ts:12 | `#` does not count as a special character |
| `PasswordDto.LineBreakExample` | src/auth/dto/reset-password.dto.ts:13 | a password holding a line break is rejected, because `.` does not match it |
| `PasswordDto.CurrentPasswordUnconstrained` | src/auth/dto/update-password.dto.ts:6-7 | validity of the update body does not depend on `currentPassword`, and equals validity of a reset body with the same new password |
| `Farm.MayModify` | src/component/farm/farm.service.ts:69-71 | the listing's owner may change it, any `admin` may, and a caller who is neither may not |
| `Farm.ApplyPatch` | src/component/farm/farm.service.ts:73-77 | every field the patch carries replaces the stored one (the owner `farm` included), every other field is kept |
| `Farm.ApplyPatchIdempotent` | src/component/farm/farm.service.ts:73-77 | applying a patch twice equals applying it once; the empty patch changes nothing |
| `Farm.Unsold` | src/component/farm/farm.service.ts:27-34 | exactly the listings whose status is not `Sold`, listings without a status included, unchanged |
| `Farm.OwnedBy` | src/component/farm/farm.service.ts:50-56 | exactly the listings whose owner `farm` is the given user, unchanged |
| `Farm.MarkedSold` | src/component/farm/farm.service.ts:105-110 | marking sold keeps the set of listings, sets that listing's status to `Sold` with its other fields kept, and leaves every other listing as it was |
| `Farm.MarkedSoldLeavesPublicList` | src/component/farm/farm.service.ts:105-110 | after marking a listing sold the public list is the old one minus exactly that listing |
| `Farm.MarkedSoldKeepsOwners` | src/component/farm/farm.service.ts:105-110 | marking sold changes no owner's list of listings |
| `Farm.FarmService.Create` | src/component/farm/farm.service.ts:17-20 | the listing is stored as given under a new id and returned |
| `Farm.FarmService.FindAllPublic` | src/component/farm/farm.service.ts:28-34 | exactly the stored listings whose status is not `Sold`, unchanged |
| `Farm.FarmService.FindOne` | src/component/farm/farm.service.ts:37-47 | the stored listing, or NotFound with the id in the message when absent |
| `Farm.FarmService.FindByUser` | src/component/farm/farm.service.ts:50-56 | exactly the stored listings the user owns, unchanged |
| `Farm.FarmService.Update` | src/component/farm/farm.service.ts:59-84 | missing id: NotFound; caller neither owner nor `admin`: Forbidden; both leave the table unchanged; otherwise only that listing becomes the patched one, which is returned |
| `Farm.FarmService.Remove` | src/component/farm/farm.service.ts:87-102 | missing id: NotFound; caller neither owner nor `admin`: Forbidden; both leave the table unchanged; otherwise exactly that listing is deleted and returned |
| `Farm.FarmService.MarkAsSold` | src/component/farm/farm.service.ts:105-117 | missing id: NotFound and no change; otherwise only that listing's status becomes `Sold`, and it is no longer public |
| `Orders.ExceedsStock` | src/component/order/order.service.ts:41 | `quantity > stock` as JavaScript compares: a listing without a stock field never runs out, a `null` stock refuses every positive quantity, a number is compared as a number |
| `Orders.LineError` | src/component/order/order.service.ts:36-45 | a missing product gives NotFound with the catalogue's message; otherwise a line fails exactly when its quantity exceeds the stock, with BadRequest naming the line's title |
| `Orders.FirstCartError` | src/component/order/order.service.ts:35-46 | no error exactly when every cart line's product exists and its quantity does not exceed the stock as JavaScript compares them |
| `Orders.NullStockRefusesCart` | src/component/order/order.service.ts:41 | a cart with a positive quantity of a listing whose stock is `null` is refused, whatever its other lines hold |
| `Orders.FirstCartErrorIsFirstFailure` | src/component/order/order.service.ts:35-46 | the reported error is that of the first failing line in cart order |
| `Orders.FirstCartErrorSkipsPassedLines` | src/component/order/order.service.ts:35-46 | after lines that passed, the outcome is decided by the remaining lines |
| `Orders.FormatItems` | src/component/order/order.service.ts:49-52 | one stored line per cart line, same order, carrying exactly the product id and the quantity |
| `Orders.PlacedOrder` | src/component/order/order.service.ts:49-58 | the new order has the buyer, one line per cart line in cart order holding exactly its product id and quantity, the client's total and status `pending` |
| `Orders.ApplyOrderPatch` | src/component/order/order.service.ts:89-92 | every field the patch carries replaces the stored one, and every field it leaves out is kept |
| `Orders.ApplyOrderPatchIdempotent` | src/component/order/order.service.ts:89-92 | applying the same patch twice equals applying it once; the empty patch changes nothing |
| `Orders.PlacedBy` | src/component/order/order.service.ts:111-117 | exactly the orders whose `userId` is the given user, unchanged |
| `Orders.OrderService.CheckCart` | src/component/order/order.service.ts:35-46 | the loop looks lines up in cart order and stops with the first line's error, or passes every line |
| `Orders.OrderService.Create` | src/component/order/order.service.ts:28-67 | absent or empty cart: BadRequest `Cart is empty`; a failing line: its error; both leave the table and the event log unchanged; otherwise exactly one order is added under the new id and exactly one `order.created` event carrying the stored order is appended; every stored order has been announced |
| `Orders.OrderService.FindOne` | src/component/order/order.service.ts:75-87 | the stored order, or NotFound with the id in the message |
| `Orders.OrderService.Update` | src/component/order/order.service.ts:89-99 | missing id: NotFound and no change; otherwise only that order becomes the patched one, which is returned |
| `Orders.OrderService.Remove` | src/component/order/order.service.ts:101-109 | missing id: NotFound and no change; otherwise exactly that order is deleted and returned; afterwards the id is absent |
| `Orders.OrderService.FindByVendor` | src/component/order/order.service.ts:111-117 | exactly the stored orders whose `userId` is the given user, unchanged |
| `Orders.OrderService.NotifyFarmerOfOrder` | src/component/order/order.service.ts:119-130 | NotFound for a missing order, otherwise the mock acknowledgement for that id |
| `Auth.HasGoogleEmail` | src/auth/auth.service.ts:82-84 | the sign-in goes on exactly when there is a profile with a non-empty address |
| `Auth.IsGmail` | src/auth/auth.service.ts:86-91 | the address ends in `@gmail.com` with its letters in any case: its last ten characters, lower-cased, are `@gmail.com` |
| `Auth.GoogleUsername` | src/auth/auth.service.ts:98 | a non-empty display name, otherwise the address up to the first `@` |
| `Auth.FallbackUsernameIsLocalPart` | src/auth/auth.service.ts:98 | for a Gmail address the fallback name is the local part: a proper prefix without `@`, followed by `@` |
| `Auth.GmailIgnoresCase` | src/auth/auth.service.ts:86-91 | addresses that differ only in letter case are both Gmail or both not |
| `Auth.AuthService.FindByEmail` | src/auth/auth.service.ts:32 | some id holding exactly that address, or none when no user has it |
| `Auth.AuthService.Register` | src/auth/auth.service.ts:28-48 | a taken lower-cased address: Conflict and no change; otherwise exactly one user is added with the lower-cased address, the hash of the password and role `user`; afterwards the address is taken |
| `Auth.AuthService.Login` | src/auth/auth.service.ts:50-77 | the same Unauthorized `Invalid credentials` for an unknown address and for a wrong password; a token for the user's id, address and role, signed at the current time, otherwise |
| `Auth.AuthService.GoogleLogin` | src/auth/auth.service.ts:81-125 | no profile or empty address: Unauthorized; a lower-cased address not ending in `@gmail.com`: Unauthorized; neither changes the store; a user is added only when none holds the address, with the display name or local part as user name, no password and role `user`; the token is for that user |
| `Auth.AuthService.ForgotPassword` | src/auth/auth.service.ts:127-149 | the same message whether or not the address is registered; a non-string address is a BadRequest; the store is not changed |
| `Auth.AuthService.ResetPassword` | src/auth/auth.service.ts:151-170 | a token that does not verify at the current time (malformed, forged or expired), or names no user, gives the same BadRequest and no change; otherwise only that user's password becomes the hash of the new one |
| `Auth.AuthService.UpdatePassword` | src/auth/auth.service.ts:172-190 | missing user: NotFound; wrong current password: Unauthorized; both leave the store unchanged; otherwise only that user's password changes, to the hash of the new one |
| `Scenarios.RegisterAgainInOtherCase` | src/auth/auth.service.ts:31-35 | after a registration, registering the same address in any letter case gives Conflict and stores nothing; the store gains only the first id, or nothing when the first call failed |
| `Scenarios.GoogleLoginTwice` | src/auth/auth.service.ts:93-125 | two Google sign-ins with one address add at most one user; both succeed and the replies agree except for the access token, which carries its issue time; at the same time they are equal |
| `Scenarios.RemoveThenFind` | src/component/order/order.service.ts:75-109 | after `remove(id)`, `findOne(id)` fails with NotFound |
| `Scenarios.FindTwice` | src/component/order/order.service.ts:75-87 | two look-ups with nothing in between answer alike |
| `Scenarios.PlaceWithinStock` | src/component/order/order.service.ts:28-67 | a two-line cart within stock becomes one pending order with both lines, in cart order, and the client's total; the table then holds exactly that order and the log exactly one `order.created` event carrying it |
| `Scenarios.RefuseOverStock` | src/component/order/order.service.ts:41-45 | a line over stock is refused with BadRequest naming its title, and nothing is stored or announced |
| `Scenarios.RefuseNullStock` | src/component/order/order.service.ts:41-45 | a listing stored with a `null` stock refuses a cart asking for one unit, with BadRequest naming its title |
| `Scenarios.OwnershipScenario` | src/component/farm/farm.service.ts:59-117 | a stranger's update is Forbidden; the owner's update and an admin's delete succeed |

## Left out

- `findAll` of the order, product and user collections: it returns the whole collection with joined documents; the collection fields are the whole collection.
- Joins (`populate`) on every read: reads return the stored records with ids, not the joined documents.
- Query results are maps keyed by id, not arrays in database order.
- The `!product` branch of order creation (order.service.ts:37-39) cannot be reached, because the catalogue lookup already fails with NotFound; the model reports the lookup's NotFound.
- The second NotFound in product update and delete (farm.service.ts:79-81, 98-100) can only fire if the listing vanishes between the two queries; the model is sequential, so it is not modelled.
- Concurrency between requests: the stock check and the insert are not atomic, and two orders can both pass against the same stock; the model runs one call at a time.
- Stock is neither decremented on placement nor restored on deletion, as in the code.
- Delivery of `order.created`, the log lines of `notifyFarmerOfOrder` and `forgotPassword` (the reset link) and the Google redirect: only the emission is recorded, in a ghost log.
- Text.ToLower: lower-cases the ASCII letters only; JavaScript's `toLowerCase` also lowers other Unicode letters, which would need the Unicode case tables.
- Farm.FarmService.MarkAsSold: `status` is not a path of the product schema (src/component/farm/entities/farm.schema.ts:4-27), and the schema keeps the document store's default strict mode, which drops unknown paths from new documents and from updates. At run time `markAsSold` therefore stores nothing and the listing stays on the public list, and a `status` sent on creation is dropped too. The model follows the service code, as if the schema declared `status`.
- Auth.AuthService.GoogleLogin: at run time the first Google sign-in of an address fails on save with an internal error (500), because the user schema requires `password` and `phone_no` and the service stores both as null. The model registers the user as the service code intends.
- Schema validation on save is not modelled. The user schema marks `password` and `phone_no` required (src/auth/entities/auth.schema.ts:20-24), and Google sign-up stores both as null. The order schema file declares a single-product order (src/component/order/entities/order.schema.ts:8-19), which differs from the shape `create` builds. The model stores records as the services build them.
- The password-strength rule is applied by request validation before the service runs; the service methods accept any body. The other class-validator checks (`@IsEmail`, `@IsPhoneNumber`, `@IsMongoId`, `@MinLength(6)` on registration) depend on library internals.
- update-order.dto.ts and update-farm.dto.ts are not part of this model; the patches let any stored field be replaced, and enum validators do not run on updates.
- Malformed ids (cast errors from the document store) and bcrypt or JWT failures other than a null stored hash.
- `typeof email !== 'string'` in `forgotPassword`: any non-string value is `None`.
- Prices and totals are unbounded integers; JavaScript numbers are floating point.
- Controllers, modules, the Passport strategies, the vendor and category services, the payment stubs and the placeholder methods of `AuthService` (auth.service.ts:192-210). The product routes call update and delete without a caller (farm.controller.ts:42, :55); the model takes the caller as the service declares it. The password-update route passes `req.user.sub` (src/auth/auth.controller.ts:67), but the user the JWT strategy hands over is `{ _id, email, role }` with no `sub` (src/auth/strategies/jwt.strategy.ts:30); at run time the service then looks up an undefined id and every password update answers NotFound. The model takes the user id as the service declares it.

=== FILE: auth.dfy ===
/** The user registry (`AuthService`): registration, password and Google
    sign-in, and the password reset flow. Users are looked up by their
    lower-cased e-mail address. Password hashing and token signing are
    external: they are passed in as function values the model knows nothing
    about. */
module Auth {
  import opened Common
  import opened Text
  import PasswordDto

  datatype Role = UserRole | AdminRole

  /** The role as it is written into the database and into tokens. */
  function RoleName(role: Role): string {
    match role
    case UserRole => "user"
    case AdminRole => "admin"
  }

  /** One stored user. `password` is a bcrypt hash, absent for accounts
      created through Google sign-in, as is `phoneNo`. */
  datatype User = User(
    username: string,
    email: string,
    phoneNo: Option<string>,
    password: Option<string>,
    role: Role)

  /** `bcrypt.hash(plain, 10)` for a given random salt, and `bcrypt.compare`. */
  datatype Crypto = Crypto(hash: (string, nat) -> string, compare: (string, string) -> bool)

  /** A token payload: `sub` is the user id. */
  datatype Claims = Claims(sub: string, email: string, role: Option<string>)

  /** `JwtService.sign(payload, { expiresIn })` at a given time, in seconds:
      the token carries that issue time and the expiry the lifetime gives
      (`None` is the module's default lifetime, one day). `JwtService.verify`
      at a given time: `None` when the token is malformed, forged or expired
      at that time. */
  datatype Jwt = Jwt(sign: (Claims, Option<string>, nat) -> string, verify: (string, nat) -> Option<Claims>)

  /** The registration body. The `role` a client sends is accepted by the
      validation but ignored by the service. */
  datatype RegisterDto = RegisterDto(username: string, email: string, phoneNo: string, password: string, role: Option<Role>)

  datatype LoginDto = LoginDto(email: string, password: string)

  /** The profile the Google strategy hands over (`None` for no profile). */
  datatype GoogleProfile = GoogleProfile(email: Option<string>, displayName: Option<string>)

  datatype UserView = UserView(id: string, username: string, email: string, role: Role, phoneNo: Option<string>)

  datatype LoginReply = LoginReply(accessToken: string, user: UserView)

  datatype GoogleReply = GoogleReply(message: string, accessToken: string, username: string, email: string, role: Role)

  const EmailExists := "Email already exists"
  const Registered := "User registered successfully"
  const InvalidCredentials := "Invalid credentials"
  const NoGoogleData := "No user data from Google"
  const GmailOnly := "Only Gmail accounts are allowed"
  const GoogleSuccess := "Google login successful"
  const GmailSuffix := "@gmail.com"
  const EmailNotString := "Email must be a valid string"
  const ResetLinkSent := "If that email exists, a reset link has been sent"
  const ResetTokenLifetime := "15m"
  const ResetLinkPrefix := "http://localhost:4200/reset-password?token="
  const InvalidToken := "Invalid or expired token"
  const ResetDone := "Password reset successful"
  const UserNotFound := "User not found"
  const WrongCurrentPassword := "Current password is incorrect"
  const PasswordUpdated := "Password updated successfully"
  /** What `bcrypt.compare` rejects with when the stored hash is null. */
  const MissingHash := "data and hash arguments required"

  /** Some stored user has exactly this e-mail address. */
  predicate EmailTaken(users: map<string, User>, email: string) {
    exists id :: id in users && users[id].email == email
  }

  /** `!user || !user.email`, negated: a profile with a non-empty address. */
  function HasGoogleEmail(profile: Option<GoogleProfile>): (r: bool)
    ensures r <==> profile.Some? && profile.value.email.Some? && |profile.value.email.value| > 0
  {
    profile.Some? && profile.value.email.Some? && profile.value.email.value != ""
  }

  /** The Gmail test, applied to the lower-cased address: the address ends
      in `@gmail.com` with its letters in any case. */
  function IsGmail(email: string): (r: bool)
    ensures r <==> |GmailSuffix| <= |email| && ToLower(email[|email| - |GmailSuffix|..]) == GmailSuffix
  {
    if |GmailSuffix| <= |email| then
      ToLowerDrop(email, |email| - |GmailSuffix|);
      EndsWith(ToLower(email), GmailSuffix)
    else
      EndsWith(ToLower(email), GmailSuffix)
  }

  /** `displayName || normalizedEmail.split('@')[0]`: an empty display name
      falls back too. */
  function GoogleUsername(displayName: Option<string>, email: string): (name: string)
    ensures displayName.Some? && displayName.value != "" ==> name == displayName.value
    ensures displayName.None? || displayName.value == "" ==> name == BeforeFirst(email, '@')
  {
    if displayName.Some? && displayName.value != "" then displayName.value else BeforeFirst(email, '@')
  }

  /** For a Gmail address the fallback user name is its local part: the
      text up to, and not including, the first `@`. */
  lemma FallbackUsernameIsLocalPart(email: string)
    requires EndsWith(email, GmailSuffix)
    ensures var name := GoogleUsername(None, email);
      name < email && email[|name|] == '@' && '@' !in name
  {
    assert email[|email| - |GmailSuffix|] == '@';
  }

  /** Gmail addresses are recognised whatever the case of their letters. */
  lemma GmailIgnoresCase(email: string, other: string)
    requires SameIgnoringCase(email, other)
    ensures IsGmail(email) <==> IsGmail(other)
  {
    ToLowerEqualIffSameIgnoringCase(email, other);
  }

  class AuthService {
    /** The user collection, by id. */
    var users: map<string, User>
    const crypto: Crypto
    const jwt: Jwt

    /** Every stored address is lower case and no two users share one. */
    ghost predicate Valid()
      reads this
    {
      && (forall id :: id in users ==> IsLowerCase(users[id].email))
      && (forall a, b :: a in users && b in users && users[a].email == users[b].email ==> a == b)
    }

    constructor(crypto: Crypto, jwt: Jwt)
      ensures Valid() && users == map[]
      ensures this.crypto == crypto && this.jwt == jwt
    {
      users := map[];
      this.crypto := crypto;
      this.jwt := jwt;
    }

    /** `userModel.findOne({ email })`. */
    method FindByEmail(email: string) returns (found: Option<string>)
      ensures found.None? <==> !EmailTaken(users, email)
      ensures found.Some? ==> found.value in users && users[found.value].email == email
    {
      if exists id :: id in users && users[id].email == email {
        var id :| id in users && users[id].email == email;
        return Some(id);
      }
      return None;
    }

    /** `register`: lower-case the address, refuse a taken one, then store
        a user with the hashed password and role `user`. */
    method Register(dto: RegisterDto, salt: nat, newId: string) returns (r: Result<string>)
      requires Valid()
      requires newId !in users
      modifies this
      ensures Valid()
      ensures EmailTaken(users, ToLower(dto.email))
      ensures EmailTaken(old(users), ToLower(dto.email)) ==>
        r == Failure(Conflict(EmailExists)) && users == old(users)
      ensures !EmailTaken(old(users), ToLower(dto.email)) ==>
        && r == Success(Registered)
        && users == old(users)[newId := User(dto.username, ToLower(dto.email), Some(dto.phoneNo),
                                             Some(crypto.hash(dto.password, salt)), UserRole)]
    {
      var normalizedEmail := ToLower(dto.email);
      var existing := FindByEmail(normalizedEmail);
      if existing.Some? {
        return Failure(Conflict(EmailExists));
      }
      var hashedPassword := crypto.hash(dto.password, salt);
      ToLowerIsLowerCase(dto.email);
      users := users[newId := User(dto.username, normalizedEmail, Some(dto.phoneNo), Some(hashedPassword), UserRole)];
      assert users[newId].email == normalizedEmail;
      return Success(Registered);
    }

    /** `login`: the same Unauthorized answer for an unknown address and for
        a wrong password; a token for the user otherwise. */
    method Login(dto: LoginDto, now: nat) returns (r: Result<LoginReply>)
      requires Valid()
      ensures !EmailTaken(users, ToLower(dto.email)) ==> r == Failure(Unauthorized(InvalidCredentials))
      ensures forall id :: id in users && users[id].email == ToLower(dto.email) ==>
        var u := users[id];
        && (u.password.None? ==> r == Failure(Internal(MissingHash)))
        && (u.password.Some? && !crypto.compare(dto.password, u.password.value) ==>
              r == Failure(Unauthorized(InvalidCredentials)))
        && (u.password.Some? && crypto.compare(dto.password, u.password.value) ==>
              r == Success(LoginReply(jwt.sign(Claims(id, u.email, Some(RoleName(u.role))), None, now),
                                      UserView(id, u.username, u.email, u.role, u.phoneNo))))
    {
      var normalizedEmail := ToLower(dto.email);
      var found := FindByEmail(normalizedEmail);
      if found.None? {
        return Failure(Unauthorized(InvalidCredentials));
      }
      var id := found.value;
      var user := users[id];
      if user.password.None? {
        return Failure(Internal(MissingHash));
      }
      if !crypto.compare(dto.password, user.password.value) {
        return Failure(Unauthorized(InvalidCredentials));
      }
      var accessToken := jwt.sign(Claims(id, user.email, Some(RoleName(user.role))), None, now);
      return Success(LoginReply(accessToken, UserView(id, user.username, user.email, user.role, user.phoneNo)));
    }

    /** `googleLogin`: only Gmail addresses; a user is created only when none
        has the lower-cased address, so signing in again adds nobody. */
    method GoogleLogin(profile: Option<GoogleProfile>, newId: string, now: nat) returns (r: Result<GoogleReply>)
      requires Valid()
      requires newId !in users
      modifies this
      ensures Valid()
      ensures !HasGoogleEmail(profile) ==>
        r == Failure(Unauthorized(NoGoogleData)) && users == old(users)
      ensures HasGoogleEmail(profile) && !IsGmail(profile.value.email.value) ==>
        r == Failure(Unauthorized(GmailOnly)) && users == old(users)
      ensures HasGoogleEmail(profile) && IsGmail(profile.value.email.value) ==>
        var email := ToLower(profile.value.email.value);
        && EmailTaken(users, email)
        && (EmailTaken(old(users), email) ==> users == old(users))
        && (!EmailTaken(old(users), email) ==>
              users == old(users)[newId := User(GoogleUsername(profile.value.displayName, email), email,
                                                None, None, UserRole)])
        && forall id :: id in users && users[id].email == email ==>
              r == Success(GoogleReply(GoogleSuccess,
                                       jwt.sign(Claims(id, email, Some(RoleName(users[id].role))), None, now),
                                       users[id].username, email, users[id].role))
    {
      if !HasGoogleEmail(profile) {
        return Failure(Unauthorized(NoGoogleData));
      }
      var normalizedEmail := ToLower(profile.value.email.value);
      if !EndsWith(normalizedEmail, GmailSuffix) {
        return Failure(Unauthorized(GmailOnly));
      }
      var found := FindByEmail(normalizedEmail);
      var id: string;
      if found.Some? {
        id := found.value;
      } else {
        ToLowerIsLowerCase(profile.value.email.value);
        id := newId;
        var username := GoogleUsername(profile.value.displayName, normalizedEmail);
        users := users[id := User(username, normalizedEmail, None, None, UserRole)];
      }
      var user := users[id];
      var accessToken := jwt.sign(Claims(id, user.email, Some(RoleName(user.role))), None, now);
      return Success(GoogleReply(GoogleSuccess, accessToken, user.username, user.email, user.role));
    }

    /** `forgotPassword`: the same answer whether or not the address is
        registered; the reset link is only written to the log. */
    method ForgotPassword(email: Option<string>, now: nat) returns (r: Result<string>)
      ensures email.None? ==> r == Failure(BadRequest(EmailNotString))
      ensures email.Some? ==> r == Success(ResetLinkSent)
    {
      if email.None? {
        return Failure(BadRequest(EmailNotString));
      }
      var normalizedEmail := ToLower(email.value);
      var found := FindByEmail(normalizedEmail);
      if found.None? {
        return Success(ResetLinkSent);
      }
      // The link is only written to the console log, which the model leaves out.
      var resetToken := jwt.sign(Claims(found.value, users[found.value].email, None), Some(ResetTokenLifetime), now);
      var resetLink := ResetLinkPrefix + resetToken;
      return Success(ResetLinkSent);
    }

    /** `resetPassword`: every failure inside the `try`, the missing user
        included, is answered with the same BadRequest. Any token that
        verifies is accepted, a login token for the same user included. */
    method ResetPassword(dto: PasswordDto.ResetPasswordDto, salt: nat, now: nat) returns (r: Result<string>)
      requires Valid()
      modifies this
      ensures Valid()
      ensures jwt.verify(dto.token, now).None? || jwt.verify(dto.token, now).value.sub !in old(users) ==>
        r == Failure(BadRequest(InvalidToken)) && users == old(users)
      ensures jwt.verify(dto.token, now).Some? && jwt.verify(dto.token, now).value.sub in old(users) ==>
        var id := jwt.verify(dto.token, now).value.sub;
        && r == Success(ResetDone)
        && users == old(users)[id := old(users)[id].(password := Some(crypto.hash(dto.newPassword, salt)))]
    {
      var payload := jwt.verify(dto.token, now);
      if payload.None? {
        return Failure(BadRequest(InvalidToken));
      }
      var userId := payload.value.sub;
      if userId !in users {
        return Failure(BadRequest(InvalidToken));
      }
      var hashedPassword := crypto.hash(dto.newPassword, salt);
      users := users[userId := users[userId].(password := Some(hashedPassword))];
      return Success(ResetDone);
    }

    /** `updatePassword`: the current password must match the stored hash;
        only that user's password changes. */
    method UpdatePassword(userId: string, dto: PasswordDto.UpdatePasswordDto, salt: nat) returns (r: Result<string>)
      requires Valid()
      modifies this
      ensures Valid()
      ensures userId !in old(users) ==>
        r == Failure(NotFound(UserNotFound)) && users == old(users)
      ensures userId in old(users) && old(users)[userId].password.None? ==>
        r == Failure(Internal(MissingHash)) && users == old(users)
      ensures userId in old(users) && old(users)[userId].password.Some? &&
              !crypto.compare(dto.currentPassword, old(users)[userId].password.value) ==>
        r == Failure(Unauthorized(WrongCurrentPassword)) && users == old(users)
      ensures userId in old(users) && old(users)[userId].password.Some? &&
              crypto.compare(dto.currentPassword, old(users)[userId].password.value) ==>
        && r == Success(PasswordUpdated)
        && users == old(users)[userId := old(users)[userId].(password := Some(crypto.hash(dto.newPassword, salt)))]
    {
      if userId !in users {
        return Failure(NotFound(UserNotFound));
      }
      var user := users[userId];
      if user.password.None? {
        return Failure(Internal(MissingHash));
      }
      if !crypto.compare(dto.currentPassword, user.password.value) {
        return Failure(Unauthorized(WrongCurrentPassword));
      }
      var hashedPassword := crypto.hash(dto.newPassword, salt);
      users := users[userId := user.(password := Some(hashedPassword))];
      return Success(PasswordUpdated);
    }
  }
}

=== FILE: common.dfy ===
/** Failure-carrying result types shared by the three services.
    Each `Error` case stands for one NestJS HTTP exception class. */
module Common {

  datatype Option<+T> = None | Some(value: T)

  /** Either the value an operation resolves with, or the exception it throws. */
  datatype Result<+T> = Success(value: T) | Failure(error: Error)

  datatype Error =
    | BadRequest(message: string)    // BadRequestException (400)
    | Unauthorized(message: string)  // UnauthorizedException (401)
    | Forbidden(message: string)     // ForbiddenException (403)
    | NotFound(message: string)      // NotFoundException (404)
    | Conflict(message: string)      // ConflictException (409)
    | Internal(message: string)      // an uncaught library error, answered with 500

  /** One field of a partial update: the value the update carries, or the
      stored one when it carries none. */
  function Override<T>(patched: Option<T>, stored: T): T {
    if patched.Some? then patched.value else stored
  }
}

=== FILE: farm.dfy ===
/** The product catalogue (`FarmService`): one table of product listings,
    each owned by the user whose id is in its `farm` field. Updating and
    deleting a listing is allowed to its owner and to administrators. */
module Farm {
  import opened Common

  /** The stock of a listing as the document store holds it: the field is
      missing, holds `null`, or holds a number. The request body may leave
      `quantity` out or send `null` (`@IsOptional()` lets both through). */
  datatype Stock = Absent | Null | Count(n: int)

  /** One product listing. `description` is optional and `None` stands for
      a missing or `null` value. `status` is not a path of the product
      schema; the model stores it as the service code writes it. */
  datatype Product = Product(
    title: string,
    description: Option<string>,
    price: int,
    quantity: Stock,
    category: string,
    farm: string,
    status: Option<string>)

  /** A partial update: every field is `None` when the body does not carry
      it, and the value it sets otherwise (`Some(None)` is a `null`). A
      request body cannot remove the stock field, so `Some(Absent)` does not
      come from a request. */
  datatype ProductPatch = ProductPatch(
    title: Option<string>,
    description: Option<Option<string>>,
    price: Option<int>,
    quantity: Option<Stock>,
    category: Option<string>,
    farm: Option<string>,
    status: Option<Option<string>>)

  /** The authenticated caller as the JWT strategy hands it over. */
  datatype Caller = Caller(id: string, role: string)

  const SoldStatus := "Sold"
  const AdminRole := "admin"
  const AccessDenied := "Access denied"

  function NotFoundMessage(id: string): string {
    "Farm with ID " + id + " not found"
  }

  function SoldNotFoundMessage(id: string): string {
    "Farm product with ID " + id + " not found"
  }

  /** The ownership rule of `update` and `remove`: the listing's owner and
      any administrator may change it, nobody else may. */
  function MayModify(p: Product, caller: Caller): (r: bool)
    ensures p.farm == caller.id ==> r
    ensures caller.role == AdminRole ==> r
    ensures r && caller.role != AdminRole ==> p.farm == caller.id
  {
    p.farm == caller.id || caller.role == AdminRole
  }

  /** The listing after a partial update: every field the patch carries is
      replaced, every other field is kept. The patch may carry `farm`, so an
      authorised update can hand a listing to another owner. */
  function ApplyPatch(p: Product, patch: ProductPatch): (q: Product)
    ensures q.title == (if patch.title.Some? then patch.title.value else p.title)
    ensures q.description == (if patch.description.Some? then patch.description.value else p.description)
    ensures q.price == (if patch.price.Some? then patch.price.value else p.price)
    ensures q.quantity == (if patch.quantity.Some? then patch.quantity.value else p.quantity)
    ensures q.category == (if patch.category.Some? then patch.category.value else p.category)
    ensures q.farm == (if patch.farm.Some? then patch.farm.value else p.farm)
    ensures q.status == (if patch.status.Some? then patch.status.value else p.status)
  {
    Product(
      Override(patch.title, p.title),
      Override(patch.description, p.description),
      Override(patch.price, p.price),
      Override(patch.quantity, p.quantity),
      Override(patch.category, p.category),
      Override(patch.farm, p.farm),
      Override(patch.status, p.status))
  }

  /** A patch changes only what it names and applying it twice is the same
      as applying it once. */
  lemma ApplyPatchIdempotent(p: Product, patch: ProductPatch)
    ensures ApplyPatch(ApplyPatch(p, patch), patch) == ApplyPatch(p, patch)
    ensures ApplyPatch(p, ProductPatch(None, None, None, None, None, None, None)) == p
  {
  }

  /** The query `{ status: { $ne: 'Sold' } }`: a listing with no status at
      all is public too. */
  function Unsold(ps: map<string, Product>): (r: map<string, Product>)
    ensures forall id :: id in r <==> id in ps && ps[id].status != Some(SoldStatus)
    ensures forall id :: id in r ==> r[id] == ps[id]
  {
    map id | id in ps && ps[id].status != Some(SoldStatus) :: ps[id]
  }

  /** The query `{ farm: userId }`. */
  function OwnedBy(ps: map<string, Product>, userId: string): (r: map<string, Product>)
    ensures forall id :: id in r <==> id in ps && ps[id].farm == userId
    ensures forall id :: id in r ==> r[id] == ps[id]
  {
    map id | id in ps && ps[id].farm == userId :: ps[id]
  }

  /** The table after `markAsSold(id)` on a stored listing. */
  function MarkedSold(ps: map<string, Product>, id: string): (r: map<string, Product>)
    requires id in ps
    ensures r.Keys == ps.Keys
    ensures r[id] == ps[id].(status := Some(SoldStatus))
    ensures forall k :: k in ps && k != id ==> r[k] == ps[k]
  {
    ps[id := ps[id].(status := Some(SoldStatus))]
  }

  /** Marking a listing sold takes exactly that listing off the public list. */
  lemma MarkedSoldLeavesPublicList(ps: map<string, Product>, id: string)
    requires id in ps
    ensures Unsold(MarkedSold(ps, id)) == Unsold(ps) - {id}
  {
    var after, before := Unsold(MarkedSold(ps, id)), Unsold(ps) - {id};
    assert after.Keys == before.Keys;
  }

  /** Marking sold does not change who owns what. */
  lemma MarkedSoldKeepsOwners(ps: map<string, Product>, id: string, userId: string)
    requires id in ps
    ensures OwnedBy(MarkedSold(ps, id), userId).Keys == OwnedBy(ps, userId).Keys
  {
  }

  class FarmService {
    /** The product collection, by id. */
    var products: map<string, Product>

    constructor()
      ensures products == map[]
    {
      products := map[];
    }

    /** `create`: stores the listing as given, owner included. */
    method Create(dto: Product, newId: string) returns (r: Product)
      requires newId !in products
      modifies this
      ensures products == old(products)[newId := dto]
      ensures r == dto
    {
      products := products[newId := dto];
      r := dto;
    }

    /** `findAllPublic`: the listings not marked sold, as stored. */
    function FindAllPublic(): (r: map<string, Product>)
      reads this
      ensures forall id :: id in r <==> id in products && products[id].status != Some(SoldStatus)
      ensures forall id :: id in r ==> r[id] == products[id]
    {
      Unsold(products)
    }

    /** `findOne`: the stored listing, or NotFound. */
    method FindOne(id: string) returns (r: Result<Product>)
      ensures r.Success? <==> id in products
      ensures r.Success? ==> r.value == products[id]
      ensures r.Failure? ==> r.error == NotFound(NotFoundMessage(id))
    {
      if id !in products {
        return Failure(NotFound(NotFoundMessage(id)));
      }
      return Success(products[id]);
    }

    /** `findByUser`: the listings the user owns, as stored. */
    function FindByUser(userId: string): (r: map<string, Product>)
      reads this
      ensures forall id :: id in r <==> id in products && products[id].farm == userId
      ensures forall id :: id in r ==> r[id] == products[id]
    {
      OwnedBy(products, userId)
    }

    /** `update`: reload, check ownership, then apply the patch. */
    method Update(id: string, patch: ProductPatch, caller: Caller) returns (r: Result<Product>)
      modifies this
      ensures id !in old(products) ==>
        r == Failure(NotFound(NotFoundMessage(id))) && products == old(products)
      ensures id in old(products) && !MayModify(old(products)[id], caller) ==>
        r == Failure(Forbidden(AccessDenied)) && products == old(products)
      ensures id in old(products) && MayModify(old(products)[id], caller) ==>
        && r == Success(ApplyPatch(old(products)[id], patch))
        && products == old(products)[id := r.value]
    {
      if id !in products {
        return Failure(NotFound(NotFoundMessage(id)));
      }
      var farm := products[id];
      if !MayModify(farm, caller) {
        return Failure(Forbidden(AccessDenied));
      }
      var updated := ApplyPatch(farm, patch);
      products := products[id := updated];
      return Success(updated);
    }

    /** `remove`: reload, check ownership, then delete. */
    method Remove(id: string, caller: Caller) returns (r: Result<Product>)
      modifies this
      ensures id !in old(products) ==>
        r == Failure(NotFound(NotFoundMessage(id))) && products == old(products)
      ensures id in old(products) && !MayModify(old(products)[id], caller) ==>
        r == Failure(Forbidden(AccessDenied)) && products == old(products)
      ensures id in old(products) && MayModify(old(products)[id], caller) ==>
        r == Success(old(products)[id]) && products == old(products) - {id}
    {
      if id !in products {
        return Failure(NotFound(NotFoundMessage(id)));
      }
      var farm := products[id];
      if !MayModify(farm, caller) {
        return Failure(Forbidden(AccessDenied));
      }
      products := products - {id};
      return Success(farm);
    }

    /** `markAsSold`: no ownership check; sets `status` to `Sold`. */
    method MarkAsSold(id: string) returns (r: Result<Product>)
      modifies this
      ensures id !in old(products) ==>
        r == Failure(NotFound(SoldNotFoundMessage(id))) && products == old(products)
      ensures id in old(products) ==>
        && products == MarkedSold(old(products), id)
        && r == Success(old(products)[id].(status := Some(SoldStatus)))
        && id !in FindAllPublic()
    {
      if id !in products {
        return Failure(NotFound(SoldNotFoundMessage(id)));
      }
      var updated := products[id].(status := Some(SoldStatus));
      products := products[id := updated];
      return Success(updated);
    }
  }
}

=== FILE: orders.dfy ===
/** Order placement and the order table (`OrderService`). Placing an order
    checks every cart line against the catalogue, in cart order, and only
    when all lines pass inserts one order and announces it with an
    `order.created` event. */
module Orders {
  import opened Common
  import Farm

  /** One line of the cart the client sends. `title` is the client's copy
      of the product title, used only in the error message. */
  datatype CartLine = CartLine(productId: string, title: string, quantity: int)

  /** The order request: the cart, the buyer (taken from the token by the
      caller) and the total the client computed. An absent `items` is
      `None`. */
  datatype CreateOrderDto = CreateOrderDto(items: Option<seq<CartLine>>, userId: string, grandTotal: int)

  /** A stored order line: product id and quantity, nothing else. */
  datatype OrderItem = OrderItem(product: string, quantity: int)

  datatype OrderStatus = Pending | Confirmed | Delivered | Cancelled

  datatype Order = Order(userId: string, items: seq<OrderItem>, totalAmount: int, status: OrderStatus)

  /** A partial update of an order: the fields present replace the stored ones. */
  datatype OrderPatch = OrderPatch(
    userId: Option<string>,
    items: Option<seq<OrderItem>>,
    totalAmount: Option<int>,
    status: Option<OrderStatus>)

  /** The payload of one `order.created` emission: the saved order and its id. */
  datatype Event = OrderCreated(id: string, order: Order)

  /** What `notifyFarmerOfOrder` answers. */
  datatype Notice = Notice(message: string, orderId: string)

  const EmptyCartMessage := "Cart is empty"
  const NotifyMessage := "Notification logic executed (mock)"

  function OrderNotFoundMessage(id: string): string {
    "Order with id " + id + " not found"
  }

  function StockMessage(title: string): string {
    "Quantity for " + title + " exceeds available stock"
  }

  /** The number a stock figure becomes in a JavaScript relational
      comparison: `null` becomes 0, and a missing field becomes `NaN`,
      written `None`, which compares false with every number. */
  function StockNumber(stock: Farm.Stock): Option<int> {
    match stock
    case Absent => None
    case Null => Some(0)
    case Count(n) => Some(n)
  }

  /** `requested > stock` as JavaScript evaluates it: a listing without a
      stock never runs out, a listing whose stock is `null` refuses every
      positive quantity, and a number is compared as a number. */
  function ExceedsStock(requested: int, stock: Farm.Stock): (r: bool)
    ensures stock.Absent? ==> !r
    ensures stock.Null? ==> (r <==> requested > 0)
    ensures stock.Count? ==> (r <==> requested > stock.n)
  {
    var number := StockNumber(stock);
    number.Some? && requested > number.value
  }

  /** The error one cart line raises against the catalogue, if any. A
      missing product fails inside the catalogue lookup, so the NotFound
      carries the catalogue's message. */
  function LineError(line: CartLine, ps: map<string, Farm.Product>): (r: Option<Error>)
    ensures line.productId !in ps ==> r == Some(NotFound(Farm.NotFoundMessage(line.productId)))
    ensures line.productId in ps ==> (r.Some? <==> ExceedsStock(line.quantity, ps[line.productId].quantity))
    ensures line.productId in ps && r.Some? ==> r.value == BadRequest(StockMessage(line.title))
  {
    if line.productId !in ps then Some(NotFound(Farm.NotFoundMessage(line.productId)))
    else if ExceedsStock(line.quantity, ps[line.productId].quantity) then Some(BadRequest(StockMessage(line.title)))
    else None
  }

  /** The error the validation loop stops with: that of the first failing line. */
  function FirstCartError(lines: seq<CartLine>, ps: map<string, Farm.Product>): (r: Option<Error>)
    ensures r.None? <==> forall j :: 0 <= j < |lines| ==> LineError(lines[j], ps).None?
  {
    if lines == [] then None
    else if LineError(lines[0], ps).Some? then LineError(lines[0], ps)
    else FirstCartError(lines[1..], ps)
  }

  /** Line `k` is the first line of the cart that fails. */
  predicate IsFirstFailure(lines: seq<CartLine>, ps: map<string, Farm.Product>, k: int) {
    && 0 <= k < |lines|
    && LineError(lines[k], ps).Some?
    && forall j :: 0 <= j < k ==> LineError(lines[j], ps).None?
  }

  /** The reported error is the error of the first failing line, and of no
      other line. */
  lemma {:induction false} FirstCartErrorIsFirstFailure(lines: seq<CartLine>, ps: map<string, Farm.Product>, k: int)
    requires IsFirstFailure(lines, ps, k)
    ensures FirstCartError(lines, ps) == LineError(lines[k], ps)
  {
    if k > 0 {
      assert LineError(lines[0], ps).None?;
      assert IsFirstFailure(lines[1..], ps, k - 1) by {
        assert forall j :: 0 <= j < k - 1 ==> lines[1..][j] == lines[j + 1];
      }
      FirstCartErrorIsFirstFailure(lines[1..], ps, k - 1);
      assert lines[1..][k - 1] == lines[k];
    }
  }

  /** Once the lines before `i` have passed, the outcome is decided by the rest. */
  lemma {:induction false} FirstCartErrorSkipsPassedLines(lines: seq<CartLine>, ps: map<string, Farm.Product>, i: nat)
    requires i <= |lines|
    requires forall j :: 0 <= j < i ==> LineError(lines[j], ps).None?
    ensures FirstCartError(lines, ps) == FirstCartError(lines[i..], ps)
  {
    if i > 0 {
      assert lines[1..][i - 1..] == lines[i..];
      assert forall j :: 0 <= j < i - 1 ==> lines[1..][j] == lines[j + 1];
      FirstCartErrorSkipsPassedLines(lines[1..], ps, i - 1);
    }
  }

  /** A cart holding a positive quantity of a listing whose stock is `null`
      is refused, whatever the other lines hold. */
  lemma NullStockRefusesCart(lines: seq<CartLine>, ps: map<string, Farm.Product>, k: int)
    requires 0 <= k < |lines| && lines[k].productId in ps
    requires ps[lines[k].productId].quantity == Farm.Null && lines[k].quantity > 0
    ensures FirstCartError(lines, ps).Some?
  {
  }

  /** `items.map(item => ({ product: item.productId, quantity: item.quantity }))`. */
  function FormatItems(lines: seq<CartLine>): (items: seq<OrderItem>)
    ensures |items| == |lines|
    ensures forall i :: 0 <= i < |lines| ==>
      items[i].product == lines[i].productId && items[i].quantity == lines[i].quantity
  {
    if lines == [] then []
    else [OrderItem(lines[0].productId, lines[0].quantity)] + FormatItems(lines[1..])
  }

  /** The order `create` saves for a cart that passed validation: the buyer,
      one stored line per cart line with its product id and quantity, the
      client's total (not recomputed) and the schema's default status. */
  function PlacedOrder(dto: CreateOrderDto): (o: Order)
    requires dto.items.Some?
    ensures o.userId == dto.userId && o.totalAmount == dto.grandTotal && o.status == Pending
    ensures |o.items| == |dto.items.value|
    ensures forall i :: 0 <= i < |o.items| ==>
      o.items[i] == OrderItem(dto.items.value[i].productId, dto.items.value[i].quantity)
  {
    Order(dto.userId, FormatItems(dto.items.value), dto.grandTotal, Pending)
  }

  /** The order after `findByIdAndUpdate(id, patch)`: a field the patch
      carries is replaced, a field it does not carry is kept. */
  function ApplyOrderPatch(o: Order, patch: OrderPatch): (q: Order)
    ensures q.userId == (if patch.userId.Some? then patch.userId.value else o.userId)
    ensures q.items == (if patch.items.Some? then patch.items.value else o.items)
    ensures q.totalAmount == (if patch.totalAmount.Some? then patch.totalAmount.value else o.totalAmount)
    ensures q.status == (if patch.status.Some? then patch.status.value else o.status)
  {
    Order(
      Override(patch.userId, o.userId),
      Override(patch.items, o.items),
      Override(patch.totalAmount, o.totalAmount),
      Override(patch.status, o.status))
  }

  /** Applying the same order patch twice is the same as applying it once,
      and the empty patch changes nothing. */
  lemma ApplyOrderPatchIdempotent(o: Order, patch: OrderPatch)
    ensures ApplyOrderPatch(ApplyOrderPatch(o, patch), patch) == ApplyOrderPatch(o, patch)
    ensures ApplyOrderPatch(o, OrderPatch(None, None, None, None)) == o
  {
  }

  /** The query `{ userId: vendorId }`. */
  function PlacedBy(orders: map<string, Order>, userId: string): (r: map<string, Order>)
    ensures forall id :: id in r <==> id in orders && orders[id].userId == userId
    ensures forall id :: id in r ==> r[id] == orders[id]
  {
    map id | id in orders && orders[id].userId == userId :: orders[id]
  }

  /** The ids carried by a log of `order.created` emissions. */
  ghost function EmittedIds(events: seq<Event>): set<string>
  {
    if events == [] then {} else EmittedIds(events[..|events| - 1]) + {events[|events| - 1].id}
  }

  lemma EmittedIdsAppend(events: seq<Event>, e: Event)
    ensures EmittedIds(events + [e]) == EmittedIds(events) + {e.id}
  {
    assert (events + [e])[..|events|] == events;
  }

  class OrderService {
    /** The order collection, by id. */
    var orders: map<string, Order>
    /** Every `order.created` emission so far, oldest first. */
    ghost var events: seq<Event>
    /** The catalogue the cart is checked against. */
    const catalog: Farm.FarmService

    /** Every stored order has been announced by an `order.created` event. */
    ghost predicate Valid()
      reads this
    {
      orders.Keys <= EmittedIds(events)
    }

    constructor(catalog: Farm.FarmService)
      ensures Valid()
      ensures orders == map[] && events == [] && this.catalog == catalog
    {
      orders := map[];
      events := [];
      this.catalog := catalog;
    }

    /** `create`: reject an empty cart; check each line in cart order and
        stop at the first failure; only then insert one order and emit one
        `order.created` event carrying it. */
    method Create(dto: CreateOrderDto, newId: string) returns (r: Result<Order>)
      requires Valid()
      requires newId !in orders
      modifies this
      ensures Valid()
      ensures dto.items.None? || dto.items.value == [] ==>
        && r == Failure(BadRequest(EmptyCartMessage))
        && orders == old(orders) && events == old(events)
      ensures dto.items.Some? && dto.items.value != [] && FirstCartError(dto.items.value, catalog.products).Some? ==>
        && r == Failure(FirstCartError(dto.items.value, catalog.products).value)
        && orders == old(orders) && events == old(events)
      ensures dto.items.Some? && dto.items.value != [] && FirstCartError(dto.items.value, catalog.products).None? ==>
        && r == Success(PlacedOrder(dto))
        && orders == old(orders)[newId := PlacedOrder(dto)]
        && events == old(events) + [OrderCreated(newId, orders[newId])]
    {
      if dto.items.None? || |dto.items.value| == 0 {
        return Failure(BadRequest(EmptyCartMessage));
      }
      var items := dto.items.value;
      var failure := CheckCart(items);
      if failure.Some? {
        return Failure(failure.value);
      }
      var formattedItems := FormatItems(items);
      var newOrder := Order(dto.userId, formattedItems, dto.grandTotal, Pending);
      orders := orders[newId := newOrder];
      EmittedIdsAppend(events, OrderCreated(newId, newOrder));
      events := events + [OrderCreated(newId, newOrder)];
      assert orders.Keys == old(orders).Keys + {newId};
      return Success(newOrder);
    }

    /** The validation loop of `create`: look each line's product up in the
        catalogue, in cart order, and stop at the first line whose product is
        missing or whose quantity exceeds the stock. */
    method CheckCart(items: seq<CartLine>) returns (failure: Option<Error>)
      ensures failure == FirstCartError(items, catalog.products)
    {
      var i := 0;
      while i < |items|
        invariant 0 <= i <= |items|
        invariant forall j :: 0 <= j < i ==> LineError(items[j], catalog.products).None?
        modifies {}
      {
        var item := items[i];
        var product := catalog.FindOne(item.productId);
        if product.Failure? {
          FirstCartErrorSkipsPassedLines(items, catalog.products, i);
          return Some(product.error);
        }
        if ExceedsStock(item.quantity, product.value.quantity) {
          FirstCartErrorSkipsPassedLines(items, catalog.products, i);
          return Some(BadRequest(StockMessage(item.title)));
        }
        i := i + 1;
      }
      FirstCartErrorSkipsPassedLines(items, catalog.products, i);
      return None;
    }

    /** `findOne`: the stored order, or NotFound. */
    method FindOne(id: string) returns (r: Result<Order>)
      ensures r.Success? <==> id in orders
      ensures r.Success? ==> r.value == orders[id]
      ensures r.Failure? ==> r.error == NotFound(OrderNotFoundMessage(id))
    {
      if id !in orders {
        return Failure(NotFound(OrderNotFoundMessage(id)));
      }
      return Success(orders[id]);
    }

    /** `update`: apply the patch to a stored order, or NotFound. */
    method Update(id: string, patch: OrderPatch) returns (r: Result<Order>)
      requires Valid()
      modifies this
      ensures Valid() && events == old(events)
      ensures id !in old(orders) ==>
        r == Failure(NotFound(OrderNotFoundMessage(id))) && orders == old(orders)
      ensures id in old(orders) ==>
        && r == Success(ApplyOrderPatch(old(orders)[id], patch))
        && orders == old(orders)[id := r.value]
    {
      if id !in orders {
        return Failure(NotFound(OrderNotFoundMessage(id)));
      }
      var updated := ApplyOrderPatch(orders[id], patch);
      orders := orders[id := updated];
      return Success(updated);
    }

    /** `remove`: delete a stored order and return it, or NotFound. */
    method Remove(id: string) returns (r: Result<Order>)
      requires Valid()
      modifies this
      ensures Valid() && events == old(events)
      ensures id !in old(orders) ==>
        r == Failure(NotFound(OrderNotFoundMessage(id))) && orders == old(orders)
      ensures id in old(orders) ==>
        r == Success(old(orders)[id]) && orders == old(orders) - {id}
      ensures id !in orders
    {
      if id !in orders {
        return Failure(NotFound(OrderNotFoundMessage(id)));
      }
      var deleted := orders[id];
      orders := orders - {id};
      return Success(deleted);
    }

    /** `findByVendor`: the orders placed by `userId`. */
    function FindByVendor(userId: string): (r: map<string, Order>)
      reads this
      ensures forall id :: id in r <==> id in orders && orders[id].userId == userId
      ensures forall id :: id in r ==> r[id] == orders[id]
    {
      PlacedBy(orders, userId)
    }

    /** `notifyFarmerOfOrder`: look the order up (NotFound propagates) and
        answer with the mock acknowledgement. */
    method NotifyFarmerOfOrder(id: string) returns (r: Result<Notice>)
      ensures id !in orders ==> r == Failure(NotFound(OrderNotFoundMessage(id)))
      ensures id in orders ==> r == Success(Notice(NotifyMessage, id))
    {
      var order := FindOne(id);
      if order.Failure? {
        return Failure(order.error);
      }
      return Success(Notice(NotifyMessage, id));
    }
  }
}

=== FILE: password_dto.dfy ===
/** The request bodies of password reset and password update, and the
    strength rule their `newPassword` field is validated against before the
    service runs: `@MinLength(8)`, `@MaxLength(32)` and
    `@Matches(/^(?=.*[a-z])(?=.*[A-Z])(?=.*\d)(?=.*[@$!%*?&]).+$/)`. */
module PasswordDto {

  const MinLength := 8
  const MaxLength := 32

  /** The four character classes the pattern's look-aheads ask for. */
  datatype CharClass = LowerLetter | UpperLetter | Digit | Special

  predicate InClass(c: char, cls: CharClass) {
    match cls
    case LowerLetter => 'a' <= c <= 'z'
    case UpperLetter => 'A' <= c <= 'Z'
    case Digit => '0' <= c <= '9'
    case Special => c in "@$!%*?&"
  }

  /** The characters the pattern's `.` does not match (no `s` flag). */
  predicate IsLineTerminator(c: char) {
    c == '\n' || c == '\r' || c == '\U{2028}' || c == '\U{2029}'
  }

  /** `(?=.*[cls])` tried at the start of `s`: some character of the class
      is reached through characters that `.` matches. */
  predicate LookaheadFinds(s: string, cls: CharClass) {
    exists j :: 0 <= j < |s| && InClass(s[j], cls) &&
      forall k :: 0 <= k < j ==> !IsLineTerminator(s[k])
  }

  /** The whole pattern: four look-aheads at `^`, then `.+` up to `$`. A
      match holds no line break and a character of every class. */
  function MatchesStrengthPattern(s: string): (r: bool)
    ensures r ==> 1 <= |s| && SingleLine(s)
    ensures r ==> Contains(s, LowerLetter) && Contains(s, UpperLetter) && Contains(s, Digit) && Contains(s, Special)
  {
    && LookaheadFinds(s, LowerLetter)
    && LookaheadFinds(s, UpperLetter)
    && LookaheadFinds(s, Digit)
    && LookaheadFinds(s, Special)
    && 1 <= |s|
    && forall k :: 0 <= k < |s| ==> !IsLineTerminator(s[k])
  }

  /** All three decorators on `newPassword`. */
  function IsStrongPassword(s: string): (r: bool)
    ensures r ==> MinLength <= |s| <= MaxLength && SingleLine(s)
    ensures r ==> Contains(s, LowerLetter) && Contains(s, UpperLetter) && Contains(s, Digit) && Contains(s, Special)
  {
    MinLength <= |s| <= MaxLength && MatchesStrengthPattern(s)
  }

  predicate Contains(s: string, cls: CharClass) {
    exists j :: 0 <= j < |s| && InClass(s[j], cls)
  }

  predicate SingleLine(s: string) {
    forall k :: 0 <= k < |s| ==> !IsLineTerminator(s[k])
  }

  /** What the strength rule asks, in plain terms: 8 to 32 characters, no
      line break, and at least one lower-case letter, one upper-case letter,
      one digit and one of `@$!%*?&`. */
  lemma StrongPasswordMeaning(s: string)
    ensures IsStrongPassword(s) <==>
      && MinLength <= |s| <= MaxLength
      && SingleLine(s)
      && Contains(s, LowerLetter) && Contains(s, UpperLetter)
      && Contains(s, Digit) && Contains(s, Special)
  {
    if SingleLine(s) {
      forall cls | Contains(s, cls) ensures LookaheadFinds(s, cls) {
        var j :| 0 <= j < |s| && InClass(s[j], cls);
        assert forall k :: 0 <= k < j ==> !IsLineTerminator(s[k]);
      }
    }
  }

  /** Apart from the four required classes any character the pattern's `.`
      matches may appear anywhere: inserting one keeps the pattern matched. */
  lemma PatternAllowsAnyOtherCharacter(s: string, i: nat, c: char)
    requires MatchesStrengthPattern(s)
    requires i <= |s|
    requires !IsLineTerminator(c)
    ensures MatchesStrengthPattern(s[..i] + [c] + s[i..])
  {
    var t := s[..i] + [c] + s[i..];
    assert |t| == |s| + 1;
    assert forall k :: 0 <= k < i ==> t[k] == s[k];
    assert t[i] == c;
    assert forall k :: i < k < |t| ==> t[k] == s[k - 1];
    forall cls | LookaheadFinds(s, cls) ensures LookaheadFinds(t, cls) {
      var j :| 0 <= j < |s| && InClass(s[j], cls);
      var j' := if j < i then j else j + 1;
      assert t[j'] == s[j];
    }
  }

  /** A password with every class, at a length in range, is accepted. */
  lemma StrongExample()
    ensures IsStrongPassword("Passw0rd!")
  {
    var good := "Passw0rd!";
    assert InClass(good[1], LowerLetter) && InClass(good[0], UpperLetter);
    assert InClass(good[5], Digit) && InClass(good[8], Special);
    assert SingleLine(good);
    StrongPasswordMeaning(good);
  }

  /** Too short and too long are rejected whatever the characters. */
  lemma LengthExamples()
    ensures !IsStrongPassword("Pa0rd!x")
    ensures !IsStrongPassword("Passw0rd!Passw0rd!Passw0rd!Passw0")
  {
    assert |"Pa0rd!x"| == 7;
    assert |"Passw0rd!Passw0rd!Passw0rd!Passw0"| == 33;
  }

  /** A password without an upper-case letter is rejected. */
  lemma NoUpperExample()
    ensures !IsStrongPassword("passw0rd!")
  {
    var p := "passw0rd!";
    assert forall j :: 0 <= j < |p| ==> !InClass(p[j], UpperLetter);
    StrongPasswordMeaning(p);
  }

  /** A password without a digit is rejected. */
  lemma NoDigitExample()
    ensures !IsStrongPassword("Password!")
  {
    var p := "Password!";
    assert forall j :: 0 <= j < |p| ==> !InClass(p[j], Digit);
    StrongPasswordMeaning(p);
  }

  /** `#` is not one of the special characters the rule asks for. */
  lemma NoSpecialExample()
    ensures !IsStrongPassword("Passw0rd#")
  {
    var p := "Passw0rd#";
    assert forall j :: 0 <= j < |p| ==> !InClass(p[j], Special);
    StrongPasswordMeaning(p);
  }

  /** A line break is rejected because `.` does not match it. */
  lemma LineBreakExample()
    ensures !IsStrongPassword("Passw0rd!\n")
  {
    assert IsLineTerminator("Passw0rd!\n"[9]);
  }

  /** The body of `POST /auth/reset-password`. */
  datatype ResetPasswordDto = ResetPasswordDto(token: string, newPassword: string)

  /** The body of `PATCH /auth/update-password`. */
  datatype UpdatePasswordDto = UpdatePasswordDto(currentPassword: string, newPassword: string)

  /** `token` only has to be a string; `newPassword` has to be strong. */
  predicate ResetPasswordDtoValid(dto: ResetPasswordDto) {
    IsStrongPassword(dto.newPassword)
  }

  /** `currentPassword` only has to be a string; `newPassword` has to be strong. */
  predicate UpdatePasswordDtoValid(dto: UpdatePasswordDto) {
    IsStrongPassword(dto.newPassword)
  }

  /** The current password is not held to the strength rule: any string
      passes, so a user whose stored password predates the rule can still
      change it. */
  lemma CurrentPasswordUnconstrained(current: string, other: string, newPassword: string)
    ensures UpdatePasswordDtoValid(UpdatePasswordDto(current, newPassword))
        == UpdatePasswordDtoValid(UpdatePasswordDto(other, newPassword))
    ensures UpdatePasswordDtoValid(UpdatePasswordDto(current, newPassword))
        == ResetPasswordDtoValid(ResetPasswordDto(other, newPassword))
  {
  }
}

=== FILE: scenarios.dfy ===
/** Sequences of calls on the services, with what the callers can rely on
    from the contracts alone. */
module Scenarios {
  import opened Common
  import opened Text
  import Farm
  import Orders
  import Auth

  /** After a registration, registering the same address in any letter case
      is refused with Conflict and stores nothing. */
  method RegisterAgainInOtherCase(s: Auth.AuthService, first: Auth.RegisterDto, second: Auth.RegisterDto,
                                  salt1: nat, salt2: nat, id1: string, id2: string)
      returns (r1: Result<string>, r2: Result<string>)
    requires s.Valid()
    requires id1 !in s.users && id2 !in s.users && id1 != id2
    requires SameIgnoringCase(first.email, second.email)
    modifies s
    ensures s.Valid()
    ensures r2 == Failure(Conflict(Auth.EmailExists))
    ensures r1.Success? ==> s.users.Keys == old(s.users.Keys) + {id1}
    ensures r1.Failure? ==> s.users == old(s.users)
  {
    r1 := s.Register(first, salt1, id1);
    ghost var afterFirst := s.users;
    ToLowerEqualIffSameIgnoringCase(first.email, second.email);
    r2 := s.Register(second, salt2, id2);
    assert s.users == afterFirst;
  }

  /** Signing in with Google twice with the same Gmail address creates at
      most one user, and both calls succeed for the same account. The
      replies differ at most in the token, which carries its issue time. */
  method GoogleLoginTwice(s: Auth.AuthService, profile: Auth.GoogleProfile, id1: string, id2: string, now1: nat, now2: nat)
      returns (r1: Result<Auth.GoogleReply>, r2: Result<Auth.GoogleReply>)
    requires s.Valid()
    requires id1 !in s.users && id2 !in s.users && id1 != id2
    requires Auth.HasGoogleEmail(Some(profile)) && Auth.IsGmail(profile.email.value)
    modifies s
    ensures s.Valid()
    ensures s.users.Keys <= old(s.users.Keys) + {id1}
    ensures r1.Success? && r2.Success?
    ensures r2.value.(accessToken := r1.value.accessToken) == r1.value
    ensures now1 == now2 ==> r2 == r1
  {
    r1 := s.GoogleLogin(Some(profile), id1, now1);
    ghost var afterFirst := s.users;
    r2 := s.GoogleLogin(Some(profile), id2, now2);
    assert s.users == afterFirst;
    var email := ToLower(profile.email.value);
    var id :| id in s.users && s.users[id].email == email;
  }

  /** Once an order is removed it can no longer be found. */
  method RemoveThenFind(s: Orders.OrderService, id: string) returns (removed: Result<Orders.Order>, found: Result<Orders.Order>)
    requires s.Valid()
    modifies s
    ensures s.Valid()
    ensures found == Failure(NotFound(Orders.OrderNotFoundMessage(id)))
    ensures removed.Success? <==> id in old(s.orders)
  {
    removed := s.Remove(id);
    found := s.FindOne(id);
  }

  /** Two look-ups with nothing in between give the same answer. */
  method FindTwice(s: Orders.OrderService, id: string) returns (a: Result<Orders.Order>, b: Result<Orders.Order>)
    ensures a == b
  {
    a := s.FindOne(id);
    b := s.FindOne(id);
  }

  function Listing(title: string, price: int, stock: int, owner: string): Farm.Product {
    Farm.Product(title, None, price, Farm.Count(stock), "vegetables", owner, None)
  }

  /** A cart of two lines within stock is placed as one pending order with
      both lines, the client's total and one `order.created` event. */
  method PlaceWithinStock() returns (service: Orders.OrderService, placed: Result<Orders.Order>)
    ensures placed.Success?
    ensures placed.value.items == [Orders.OrderItem("a", 2), Orders.OrderItem("b", 1)]
    ensures placed.value.status == Orders.Pending && placed.value.totalAmount == 250
    ensures service.orders == map["order1" := placed.value]
    ensures service.events == [Orders.OrderCreated("order1", placed.value)]
  {
    var catalog := new Farm.FarmService();
    var _ := catalog.Create(Listing("Kale", 100, 5, "farmer1"), "a");
    var _ := catalog.Create(Listing("Eggs", 50, 1, "farmer2"), "b");
    service := new Orders.OrderService(catalog);
    var cart := [Orders.CartLine("a", "Kale", 2), Orders.CartLine("b", "Eggs", 1)];
    assert Orders.LineError(cart[0], catalog.products).None?;
    assert Orders.LineError(cart[1], catalog.products).None?;
    placed := service.Create(Orders.CreateOrderDto(Some(cart), "buyer", 250), "order1");
  }

  /** A line over stock is refused with the product's title, and nothing is
      stored or announced. */
  method RefuseOverStock() returns (service: Orders.OrderService, refused: Result<Orders.Order>)
    ensures refused == Failure(BadRequest(Orders.StockMessage("Carrots")))
    ensures service.orders == map[] && service.events == []
  {
    var catalog := new Farm.FarmService();
    var _ := catalog.Create(Listing("Carrots", 30, 2, "farmer1"), "c");
    service := new Orders.OrderService(catalog);
    var overStock := [Orders.CartLine("c", "Carrots", 3)];
    assert Orders.IsFirstFailure(overStock, catalog.products, 0);
    Orders.FirstCartErrorIsFirstFailure(overStock, catalog.products, 0);
    refused := service.Create(Orders.CreateOrderDto(Some(overStock), "buyer", 90), "order2");
  }

  /** A listing whose stock is `null` refuses a cart asking for one unit,
      because JavaScript compares `1 > null` as `1 > 0`. */
  method RefuseNullStock() returns (refused: Result<Orders.Order>)
    ensures refused == Failure(BadRequest(Orders.StockMessage("Carrots")))
  {
    var catalog := new Farm.FarmService();
    var _ := catalog.Create(Farm.Product("Carrots", None, 30, Farm.Null, "vegetables", "farmer1", None), "c");
    var service := new Orders.OrderService(catalog);
    var cart := [Orders.CartLine("c", "Carrots", 1)];
    assert Orders.IsFirstFailure(cart, catalog.products, 0);
    Orders.FirstCartErrorIsFirstFailure(cart, catalog.products, 0);
    refused := service.Create(Orders.CreateOrderDto(Some(cart), "buyer", 30), "order1");
  }

  /** Only the owner or an administrator may change a listing; anyone may
      mark it sold, after which it leaves the public list. */
  method OwnershipScenario() returns (byStranger: Result<Farm.Product>, byOwner: Result<Farm.Product>, byAdmin: Result<Farm.Product>)
    ensures byStranger == Failure(Forbidden(Farm.AccessDenied))
    ensures byOwner.Success? && byOwner.value.price == 120
    ensures byAdmin.Success?
  {
    var catalog := new Farm.FarmService();
    var _ := catalog.Create(Listing("Kale", 100, 5, "farmer1"), "a");
    var raise := Farm.ProductPatch(None, None, Some(120), None, None, None, None);
    byStranger := catalog.Update("a", raise, Farm.Caller("farmer2", "user"));
    byOwner := catalog.Update("a", raise, Farm.Caller("farmer1", "user"));
    var _ := catalog.MarkAsSold("a");
    assert "a" !in catalog.FindAllPublic();
    byAdmin := catalog.Remove("a", Farm.Caller("someone", "admin"));
    assert catalog.products == map[];
  }
}

=== FILE: text.dfy ===
/** The string primitives the services apply to e-mail addresses:
    lower-casing, a suffix test and `split('@')[0]`. */
module Text {

  predicate IsUpper(c: char) { 'A' <= c <= 'Z' }

  /** `toLowerCase` on one character, for the ASCII letters. */
  function LowerChar(c: char): (d: char)
    ensures !IsUpper(d)
    ensures IsUpper(c) ==> d as int == c as int + 32
    ensures !IsUpper(c) ==> d == c
  {
    if IsUpper(c) then (c as int + 32) as char else c
  }

  /** No upper-case ASCII letter anywhere in `s`. */
  predicate IsLowerCase(s: string) {
    forall i :: 0 <= i < |s| ==> !IsUpper(s[i])
  }

  /** Two strings that differ at most in the case of their letters. */
  predicate SameIgnoringCase(s: string, t: string) {
    |s| == |t| && forall i :: 0 <= i < |s| ==> LowerChar(s[i]) == LowerChar(t[i])
  }

  /** `s.toLowerCase()`: the same string with every upper-case letter replaced
      by its lower-case letter. */
  function ToLower(s: string): (r: string)
    ensures |r| == |s|
    ensures forall i :: 0 <= i < |s| ==> r[i] == LowerChar(s[i])
  {
    if s == [] then [] else [LowerChar(s[0])] + ToLower(s[1..])
  }

  lemma ToLowerIsLowerCase(s: string)
    ensures IsLowerCase(ToLower(s))
  {
  }

  /** A string already in lower case is left as it is, so lower-casing twice
      is the same as lower-casing once. */
  lemma LowerCaseIsFixed(s: string)
    requires IsLowerCase(s)
    ensures ToLower(s) == s
  {
    assert forall i :: 0 <= i < |s| ==> ToLower(s)[i] == s[i];
  }

  lemma ToLowerIdempotent(s: string)
    ensures ToLower(ToLower(s)) == ToLower(s)
  {
    ToLowerIsLowerCase(s);
    LowerCaseIsFixed(ToLower(s));
  }

  /** Lower-casing identifies exactly the strings that differ only in case. */
  lemma ToLowerEqualIffSameIgnoringCase(s: string, t: string)
    ensures ToLower(s) == ToLower(t) <==> SameIgnoringCase(s, t)
  {
    if ToLower(s) == ToLower(t) {
      assert forall i :: 0 <= i < |s| ==> LowerChar(s[i]) == ToLower(t)[i];
    }
    if SameIgnoringCase(s, t) {
      assert forall i :: 0 <= i < |s| ==> ToLower(s)[i] == ToLower(t)[i];
    }
  }

  /** `s.endsWith(suffix)`. */
  function EndsWith(s: string, suffix: string): (r: bool)
    ensures r <==> |suffix| <= |s| && forall i :: 0 <= i < |suffix| ==> s[|s| - |suffix| + i] == suffix[i]
  {
    |suffix| <= |s| && s[|s| - |suffix|..] == suffix
  }

  /** Lower-casing commutes with dropping a prefix. */
  lemma ToLowerDrop(s: string, k: nat)
    requires k <= |s|
    ensures ToLower(s)[k..] == ToLower(s[k..])
  {
    assert forall i :: 0 <= i < |s| - k ==> ToLower(s)[k..][i] == LowerChar(s[k..][i]);
  }

  /** `s.split(c)[0]`: the text before the first `c`, or all of `s` when it
      holds no `c`. */
  function BeforeFirst(s: string, c: char): (r: string)
    ensures r <= s
    ensures c !in r
    ensures |r| < |s| ==> s[|r|] == c
  {
    if s == [] then []
    else if s[0] == c then []
    else [s[0]] + BeforeFirst(s[1..], c)
  }
}
